=== FILE: README.md ===
# Restaurant recommendation: search proxy, filters and recommendation view

This project models the three pieces of sequential logic in a web page that recommends a
restaurant near the user. The page asks a places-search service for restaurants in the
selected food categories around the user's position. It then shows either one random pick
or a five-way spinning wheel, and marks the chosen place and a route to it on a map.

- **Search proxy** (`GET /api/recommend`): reads `lat`, `lng`, `query` and `radius`; rejects a
  request without coordinates; splits the query on commas; runs one keyword search per
  trimmed piece; concatenates the hits in call order; drops repeated places (first
  occurrence by `id` wins); answers 200 with the list, or 500 when a search throws.
- **Filter selection**: toggling a category, "select all" / clear, the "select all"
  indicator, and the comma-joined query string the page sends to the proxy.
- **Recommendation view**: a state record advanced by one pure function per handler. The
  handlers cover starting a request, the geolocation callbacks, the fetch outcome in single
  or roulette mode, the spin button, the end of a spin, and the marker/route swap of
  `updateMapAndCard`.

Modules:

- `Wrappers` (wrappers.dfy): `Option`.
- `Text` (text.dfy): JavaScript `split`, `join` and `trim`.
- `Places` (places.dfy): place records and the de-duplication.
- `Proxy` (proxy.dfy): the request handler.
- `Filters` (filters.dfy): the category and radius filters.
- `Overlays` (overlays.dfy): marker and polyline handle slots.
- `View` (view.dfy): the page state machine, its events and its invariant.

The following are parameters rather than code:

- The upstream search is a function `SearchCall -> SearchReply`. A reply either carries a
  parsed body, whose `documents` field may be missing, or is `Thrown` (a network or parse
  failure).
- Geolocation and the proxy fetch arrive as events: `PositionFound`, `PositionFailed` and
  `Answered`.
- `Math.random()` becomes an index chosen by the caller, within the bound the page
  computes: `PickInRange` for the single pick and `PrizeInRange` for the wheel.
- Map objects are slots in a `Layer`. A layer lists every marker (or polyline) ever created,
  each with a drawn flag. The page's reference is the last one.

The model follows the code in these details:

- An empty `lat` or `lng` is rejected like a missing one.
- An empty `query` or `radius` takes its default like a missing one.
- The proxy never checks the upstream HTTP status. An error body without `documents`
  therefore adds nothing and the request still succeeds. Only a thrown failure turns into
  a 500.
- Empty pieces of the query (`"한식,"`) are still searched, with an empty keyword.

## Model

| member | source | states |
|---|---|---|
| Proxy.DefaultsApplied | src/app/api/recommend/route.ts:22-23 | with coordinates given, a request without a query (or with an empty one) runs exactly one search, for `음식점`; every search uses the request's radius, or `800` when it is absent or empty |
| Proxy.RadiusApplied | src/app/api/recommend/route.ts:23 | every search issued uses the request's radius when one is given and not empty, and the default radius otherwise |
| Proxy.DefaultQueryApplied | src/app/api/recommend/route.ts:22 | without a query, the searches issued are exactly the one search for the default term, at the given coordinates and with the (defaulted) radius |
| Proxy.MissingCoordinatesRejected | src/app/api/recommend/route.ts:25-27 | the answer is a 400 exactly when `lat` or `lng` is absent or empty, and then it carries the fixed message and no upstream search was issued |
| Proxy.SearchesFollowQueryPieces | src/app/api/recommend/route.ts:30-35 | the searches issued are a prefix of one search per comma piece of the query: search i uses the trimmed i-th comma piece of the query, the given coordinates and the radius; on success the number of searches is the number of commas plus one, empty pieces included |
| Proxy.HandleIssuesPlannedPrefix | src/app/api/recommend/route.ts:33-46 | with coordinates given, the searches issued are a prefix of the planned ones, in order, and on success all of them |
| Proxy.Gather | src/app/api/recommend/route.ts:31-46 | the loop completes exactly when no search throws, and then yields the in-order concatenation of every reply's documents (a missing `documents` adds nothing); otherwise it stops right after the first search that threw |
| Proxy.Answer | src/app/api/recommend/route.ts:31-61 | when no search throws, every planned search is issued and the answer is a 200 with the de-duplicated in-order concatenation of the replies' documents (also when empty); when one throws, the answer is a 500 with the fixed message, the searches issued are a prefix of the planned ones, the last of them threw and every earlier one replied (the loop stops at the first throw); a successful answer never lists two places with the same id; the answer is never a 400 |
| Places.FindIndex | src/app/api/recommend/route.ts:49 | `findIndex` returns -1 exactly when the id is absent, otherwise the first index holding it |
| Places.FirstIndices | src/app/api/recommend/route.ts:48-50 | the positions kept by the filter: ascending, each the first occurrence of its id, and every first occurrence is among them |
| Places.DedupeIsFirstOccurrenceSubsequence | src/app/api/recommend/route.ts:48-50 | the de-duplicated list is the input restricted to the first-occurrence positions, in input order (an order-preserving subsequence) |
| Places.DedupeHasUniqueIds | src/app/api/recommend/route.ts:48-50 | no two records of the output share an id |
| Places.DedupeKeepsFirstOfEveryId | src/app/api/recommend/route.ts:48-50 | the output has exactly the input's ids, and the record kept for each id is its first occurrence |
| Places.DedupeIdentityIffUnique | src/app/api/recommend/route.ts:48-50 | the output equals the input exactly when the input has no repeated id |
| Places.DedupeIdempotent | src/app/api/recommend/route.ts:48-50 | de-duplicating twice gives the same list as once |
| Places.DedupeBySeenIds | src/app/api/recommend/route.ts:48-50 | a single pass with a set of seen ids computes the same list as the filter/findIndex formulation |
| Text.Split | src/app/api/recommend/route.ts:30 | `split(',')` gives one more piece than there are commas, no piece contains a comma, and joining the pieces with commas gives the input back |
| Text.Join | src/app/page.tsx:108 | the first part is a prefix of the joined string; for comma-free parts the string has one comma fewer than there are parts |
| Text.SplitJoin | src/app/page.tsx:108 | splitting a comma-join of non-empty-list, comma-free parts recovers the parts exactly |
| Text.Trim | src/app/api/recommend/route.ts:35 | trimming never lengthens a string |
| Text.TrimRemovesOnlyPadding | src/app/api/recommend/route.ts:35 | the trimmed string has no white space at either end and is an infix of the input with only white space around it |
| Text.TrimFixedPoint | src/app/api/recommend/route.ts:35 | trimming leaves a string unchanged exactly when neither end is white space |
| Text.TrimIdempotent | src/app/api/recommend/route.ts:35 | trimming twice is trimming once |
| Filters.Remove | src/app/page.tsx:119 | `filter(c => c !== category)` removes every copy of the category, keeps every other member, keeps a duplicate-free list duplicate-free, and leaves a list without the category unchanged |
| Filters.RemoveAt | src/app/page.tsx:119 | in a duplicate-free selection, removing the entry at position k gives the entries before it followed by the entries after it, in their order |
| Filters.Toggle | src/app/page.tsx:116-122 | toggling flips whether the category is selected and leaves every other category's membership unchanged; an unselected category is appended at the end; in a duplicate-free list a selected one is cut out with the rest kept in order; the list stays duplicate-free and within the offered categories |
| Filters.ToggleTwice | src/app/page.tsx:116-122 | toggling the same category twice restores the set of selected categories, and the list itself when the category was not selected |
| Filters.SelectAll | src/app/page.tsx:124-130 | the value `true` makes the selection exactly the category list, in display order; any other value clears it; every category is selected exactly for `true`; the result is always well-formed |
| Filters.AllSelectedIffEveryCategory | src/app/page.tsx:244 | for a duplicate-free selection of offered categories, the indicator `length === CATEGORIES.length` holds exactly when every category is selected |
| Filters.QueryRoundTrip | src/app/page.tsx:108 | the proxy's comma split of the query the page sends is exactly the selection, in order, or the fallback term (the proxy's default) when nothing is selected |
| Filters.QueryPiecesNeedNoTrim | src/app/page.tsx:41-44 | trimming leaves every search term the page can send unchanged |
| Filters.CategoriesUnpadded | src/app/page.tsx:41-44 | no category name has white space at either end |
| Overlays.Detach | src/app/page.tsx:135-136 | `setMap(null)` takes the referenced overlay off the map and keeps every overlay's shape; in a valid layer nothing is drawn afterwards |
| Overlays.Replace | src/app/page.tsx:189-200 | after the swap the new overlay is the reference and is drawn; in a valid layer it is the only one drawn |
| Overlays.AtMostOneAttached | src/app/page.tsx:189-200 | in a valid layer at most one overlay is drawn, and it is the referenced one |
| View.Receive | src/app/page.tsx:110-113 | the page gets documents exactly for a 200 answer, and then the proxy's documents; any other status becomes a failure; every `Answered` event goes through it |
| View.MapLoaded | src/app/page.tsx:97-105 | the map becomes ready; a newly created map is centred on the initial position; nothing else changes |
| View.StartRequest | src/app/page.tsx:132-136 | loading is set, the recommendation is cleared, and marker and route are taken off the map; nothing else changes (the stored position, the filters and the wheel are kept) |
| View.LocationFailed | src/app/page.tsx:170-174 | a geolocation error ends the request: loading is cleared, the request phase becomes idle and no other field of the page state changes |
| View.Located | src/app/page.tsx:138-144 | the position is stored, the map is re-centred on it, and the fetch for the pending mode starts; nothing else changes |
| View.Respond | src/app/page.tsx:146-169 | loading is cleared on every path. A fetch failure keeps the recommendation. Roulette with at least 5 results takes the first 5 in order, opens the dialog and clears `mustSpin`; with fewer it alerts and leaves the wheel alone. Single mode with results recommends `documents[pick]` and, with a map, draws its marker and a route that starts at the position the request was made from; with none it alerts. A path with a notice changes nothing but loading and the phase; the wheel path changes only the wheel fields besides them; the single-pick path changes only the card and the overlays besides them |
| View.ShowPlace | src/app/page.tsx:184-202 | the card shows the place. With a map, the old marker and route are detached and exactly one new marker at the place and one route from the user to it are drawn. Without a map the overlays stay untouched |
| View.SpinClicked | src/app/page.tsx:177-182 | a click while spinning changes nothing; otherwise the spin starts with the drawn prize index; nothing else changes (the wheel dialog stays open) |
| View.SpinStopped | src/app/page.tsx:313-318 | the spin ends and the dialog closes; with a stored position the prize candidate becomes the recommendation and, with a map, its marker and a route that starts at the stored position are drawn; nothing else changes (the filters and the wheel's candidates are kept) |
| View.InitSatisfiesInv | src/app/page.tsx:53-69 | the initial page state satisfies the page invariant |
| View.StepKeepsInv | src/app/page.tsx:116-202 | every event the page can deliver keeps the invariant. The invariant covers: loading exactly while a request is in flight, with the card empty and the wheel dialog closed meanwhile; a well-formed selection; 0 or 5 wheel candidates with the prize index among them; marker and route drawn together, alone and at the recommended place |
| View.Run | src/app/page.tsx:218-222 | any sequence of events, with the buttons gated by loading, map readiness and the modal wheel dialog, keeps the invariant |
| View.OverlaysNeverAccumulate | src/app/page.tsx:189-200 | in any reachable state at most one marker and one route are on the map, both or neither, showing the recommended place |
| View.NoticeLeavesCardEmpty | src/app/page.tsx:132-168 | in a reachable state, a fetch outcome that ends with a notice (no results, fewer than five for the wheel, or a failure) leaves the card empty and nothing drawn, as the request cleared them at its start |
| View.LoadingClearedOnCompletion | src/app/page.tsx:164-174 | a geolocation error and every fetch outcome clear loading |
| View.RequestSearchesSelection | src/app/page.tsx:107-114 | for any well-formed selection and offered radius, on the request the page builds from them the proxy searches exactly the selected categories in order, or the fallback term, around the position and within the chosen radius; all of them unless a search throws |

## Left out

- Network I/O: the HTTP `fetch` calls to the search service and to `/api/recommend`, JSON
  parsing, `NextResponse` and the API keys. They are replaced by the `search` parameter and
  by the `Answered` event, which carries the proxy's response.
- `console.error` logging and the text of the `alert` notices. Only which notice appears
  is modelled, as `Alert`.
- Kakao Maps SDK script loading, map construction, `LatLng`, and marker/polyline drawing.
  These are foreign calls. Only the drawn/detached state of each created overlay is kept.
- `isMapReady` and `mapInstance.current` are one flag, `mapReady`. The map is created as
  soon as the SDK is ready, because the container always exists after the first render.
- `Number(place.y)` / `Number(place.x)` and the geolocation coordinates are floating
  point. Positions stay the text the source would print.
- `Math.random()`: the random draws are indices chosen by the caller within the bound the
  code computes. Uniformity is not modelled.
- `encodeURIComponent` and URL assembly. The proxy receives exactly the parameters the
  page sent.
- React rendering, the dialogs, checkboxes and radio group (page.tsx:206-329), beyond the
  state they read and the handlers they call. `rouletteData` (the wheel labels) is not
  modelled.
- Stale in-flight requests. Events from a superseded request are not delivered. The page
  gates its buttons on `loading`, and the model delivers callbacks only for the request in
  flight.
- The link between a request and its answer. An `Answered` event may carry any proxy
  response. The request itself is described separately by `View.RequestSearchesSelection`.
  The page builds the query from the selection captured at the click (page.tsx:107-110),
  and the phase does not record that query.
- The street-view panorama. It does not appear in the code this model follows.
- Text.Trim: its own contract states only that the result is no longer than the input. The
  full characterisation (no white space at the ends, only white space removed) is
  `Text.TrimRemovesOnlyPadding`, kept separate to keep proofs that mention `Trim` cheap.

=== FILE: filters.dfy ===
/** The search filters of the page: the category checkboxes with their "select all" box,
    the radius choice, and the query string sent to the proxy. */
module Filters {
  import opened Text
  import Proxy

  /** The selectable food categories, in display order. */
  const Categories: seq<string> := [
    "한식", "중식", "일식", "양식", "아시아음식", "분식",
    "패스트푸드", "치킨", "피자", "뷔페", "카페", "술집"
  ]

  /** A radius choice: the metres sent to the proxy and the caption and walking time shown beside it. */
  datatype Distance = Distance(value: string, caption: string, walkTime: string)

  const Distances: seq<Distance> := [
    Distance("500", "가까워요", "약 5분"),
    Distance("800", "적당해요", "약 10분"),
    Distance("2000", "조금 멀어요", "약 25분")
  ]

  /** The radius selected before the user picks one. */
  const DefaultDistance: string := "800"

  /** The term searched when no category is selected. */
  const FallbackQuery: string := "음식점"

  /** The value a checkbox hands to its change handler. */
  datatype CheckState = Checked | Unchecked | Indeterminate

  predicate NoDup<T(==)>(s: seq<T>) {
    forall i, j :: 0 <= i < j < |s| ==> s[i] != s[j]
  }

  /** Every selected entry is one of the offered categories. */
  predicate WithinCategories(sel: seq<string>) {
    forall c :: c in sel ==> c in Categories
  }

  /** A selection the checkboxes can produce: offered categories, each at most once. */
  predicate WellFormed(sel: seq<string>) {
    NoDup(sel) && WithinCategories(sel)
  }

  /** `prev.filter(x => x !== c)`. */
  function Remove(sel: seq<string>, c: string): (r: seq<string>)
    ensures c !in r
    ensures forall x :: x != c ==> (x in r <==> x in sel)
    ensures NoDup(sel) ==> NoDup(r)
    ensures c !in sel ==> r == sel
  {
    if |sel| == 0 then []
    else
      var rest := Remove(sel[1..], c);
      assert forall x :: x in sel <==> x == sel[0] || x in sel[1..];
      assert NoDup(sel) ==> NoDup(sel[1..]) && sel[0] !in rest;
      if sel[0] == c then rest
      else
        assert c !in sel ==> [sel[0]] + sel[1..] == sel;
        Cons(sel[0], rest)
  }

  /** In a duplicate-free selection, removing the entry at position `k` closes the gap: the
      entries before and after it keep their order. */
  lemma {:induction false} RemoveAt(sel: seq<string>, k: nat)
    requires NoDup(sel) && k < |sel|
    ensures Remove(sel, sel[k]) == sel[..k] + sel[k + 1..]
    decreases k
  {
    var c := sel[k];
    assert NoDup(sel[1..]);
    if k == 0 {
      assert c !in sel[1..];
    } else {
      assert sel[0] != c;
      RemoveAt(sel[1..], k - 1);
      assert sel[1..][k - 1] == c;
      assert [sel[0]] + (sel[1..][..k - 1] + sel[1..][k..]) == sel[..k] + sel[k + 1..];
    }
  }

  function Cons(x: string, s: seq<string>): (r: seq<string>)
    ensures forall y :: y in r <==> y == x || y in s
    ensures x !in s && NoDup(s) ==> NoDup(r)
  {
    [x] + s
  }

  /** `handleCategoryChange(c)`: drop `c` when it is selected, otherwise append it. */
  function Toggle(sel: seq<string>, c: string): (r: seq<string>)
    ensures c in r <==> c !in sel
    ensures forall x :: x != c ==> (x in r <==> x in sel)
    ensures c !in sel ==> r == sel + [c]
    ensures NoDup(sel) ==> forall k :: 0 <= k < |sel| && sel[k] == c ==> r == sel[..k] + sel[k + 1..]
    ensures NoDup(sel) ==> NoDup(r)
    ensures c in Categories && WithinCategories(sel) ==> WithinCategories(r)
  {
    if c in sel then
      assert NoDup(sel) ==> forall k :: 0 <= k < |sel| && sel[k] == c ==> Remove(sel, c) == sel[..k] + sel[k + 1..] by {
        if NoDup(sel) {
          forall k | 0 <= k < |sel| && sel[k] == c
            ensures Remove(sel, c) == sel[..k] + sel[k + 1..]
          {
            RemoveAt(sel, k);
          }
        }
      }
      Remove(sel, c)
    else sel + [c]
  }

  lemma {:induction false} RemoveAppended(sel: seq<string>, c: string)
    requires c !in sel
    ensures Remove(sel + [c], c) == sel
    decreases |sel|
  {
    if |sel| == 0 {
      assert [c][1..] == [];
    } else {
      assert (sel + [c])[1..] == sel[1..] + [c];
      RemoveAppended(sel[1..], c);
      assert [sel[0]] + sel[1..] == sel;
    }
  }

  /** Toggling twice restores which categories are selected; when `c` was not selected it
      restores the selection list itself. */
  lemma ToggleTwice(sel: seq<string>, c: string)
    ensures forall x :: x in Toggle(Toggle(sel, c), c) <==> x in sel
    ensures c !in sel ==> Toggle(Toggle(sel, c), c) == sel
  {
    if c !in sel {
      RemoveAppended(sel, c);
    }
  }

  /** `handleSelectAll(checked)`: only a definite `true` selects everything. */
  function SelectAll(checked: CheckState): (r: seq<string>)
    ensures WellFormed(r)
    ensures checked == Checked <==> forall c :: c in Categories ==> c in r
    ensures checked == Checked ==> r == Categories
    ensures checked != Checked ==> r == []
  {
    CategoriesDistinct();
    assert Categories[0] in Categories;
    if checked == Checked then Categories else []
  }

  /** The "select all" checkbox is ticked when the selection is as long as the category list. */
  predicate AllSelected(sel: seq<string>) {
    |sel| == |Categories|
  }

  lemma CategoriesDistinct()
    ensures NoDup(Categories)
  {
  }

  function Elems<T>(s: seq<T>): set<T> {
    set x | x in s
  }

  lemma {:induction false} DistinctElems<T>(s: seq<T>)
    requires NoDup(s)
    ensures |Elems(s)| == |s|
    decreases |s|
  {
    if |s| > 0 {
      var init := s[..|s| - 1];
      DistinctElems(init);
      assert Elems(s) == Elems(init) + {s[|s| - 1]};
      assert s[|s| - 1] !in Elems(init);
    }
  }

  lemma {:induction false} SubsetCard<T>(a: set<T>, b: set<T>)
    requires a <= b
    ensures |a| <= |b|
    ensures |a| == |b| ==> a == b
    decreases |b|
  {
    if b != {} {
      var x :| x in b;
      if x in a {
        SubsetCard(a - {x}, b - {x});
        assert |a - {x}| == |a| - 1;
        if |a| == |b| {
          assert a - {x} == b - {x};
          assert a == (a - {x}) + {x};
          assert b == (b - {x}) + {x};
        }
      } else {
        SubsetCard(a, b - {x});
      }
    }
  }

  /** For a selection the checkboxes can produce, the "select all" box is ticked exactly
      when every category is selected. */
  lemma AllSelectedIffEveryCategory(sel: seq<string>)
    requires WellFormed(sel)
    ensures AllSelected(sel) <==> forall c :: c in Categories ==> c in sel
  {
    CategoriesDistinct();
    DistinctElems(sel);
    DistinctElems(Categories);
    assert Elems(sel) <= Elems(Categories);
    SubsetCard(Elems(sel), Elems(Categories));
    if forall c :: c in Categories ==> c in sel {
      assert Elems(Categories) <= Elems(sel);
      SubsetCard(Elems(Categories), Elems(sel));
    } else if AllSelected(sel) {
      assert Elems(sel) == Elems(Categories);
      forall c | c in Categories
        ensures c in sel
      {
        assert c in Elems(Categories);
      }
      assert false;
    }
  }

  /** The `query` parameter the page sends: the selected categories joined with commas,
      or the fallback term when none is selected. The proxy splits it back into the selection. */
  function QueryFor(sel: seq<string>): string {
    if |sel| > 0 then Join(sel, ',') else FallbackQuery
  }

  /** The terms the proxy should search for a selection. */
  function Keywords(sel: seq<string>): seq<string> {
    if |sel| == 0 then [FallbackQuery] else sel
  }

  /** No category name contains a comma, so the proxy splits the query back into exactly the
      selected categories, in selection order; with nothing selected it gets the fallback term,
      which is also the proxy's own default. */
  lemma QueryRoundTrip(sel: seq<string>)
    requires WithinCategories(sel)
    ensures Split(QueryFor(sel), ',') == Keywords(sel)
    ensures FallbackQuery == Proxy.DefaultQuery
  {
    if |sel| == 0 {
      SplitSeparatorFree(FallbackQuery, ',');
    } else {
      assert forall c :: c in Categories ==> ',' !in c;
      assert forall i :: 0 <= i < |sel| ==> sel[i] in sel;
      SplitJoin(sel, ',');
    }
  }

  /** Trimming the pieces of the query gives back the search terms themselves. */
  lemma QueryPiecesNeedNoTrim(sel: seq<string>)
    requires WithinCategories(sel)
    ensures forall i :: 0 <= i < |Keywords(sel)| ==> Trim(Keywords(sel)[i]) == Keywords(sel)[i]
  {
    if |sel| == 0 {
      var kw := Keywords(sel);
      forall i | 0 <= i < |kw|
        ensures Trim(kw[i]) == kw[i]
      {
        assert kw[i] == FallbackQuery;
        FallbackUnpadded();
      }
    } else {
      CategoriesUnpadded();
      forall i | 0 <= i < |sel|
        ensures Trim(sel[i]) == sel[i]
      {
        assert sel[i] in sel;
      }
    }
  }

  lemma FallbackUnpadded()
    ensures Trim(FallbackQuery) == FallbackQuery
  {
    var w := FallbackQuery;
    assert |w| == 3 && Hangul(w[0]) && Hangul(w[2]);
    HangulWordUnpadded(w);
  }

  /** A precomposed Hangul syllable. */
  predicate Hangul(c: char) {
    '\U{AC00}' <= c <= '\U{D7A3}'
  }

  /** A word that begins and ends with a Hangul syllable is left alone by trimming. */
  lemma HangulWordUnpadded(w: string)
    requires |w| > 0 && Hangul(w[0]) && Hangul(w[|w| - 1])
    ensures Trim(w) == w
  {
    assert !IsSpace(w[0]) && !IsSpace(w[|w| - 1]);
    assert Unpadded(w);
    TrimFixedPoint(w);
  }

  /** The category names need no trimming, so each search keyword is the category itself. */
  lemma CategoriesUnpadded()
    ensures forall c :: c in Categories ==> Trim(c) == c
  {
    forall i | 0 <= i < |Categories|
      ensures Trim(Categories[i]) == Categories[i]
    {
      var w := Categories[i];
      assert |w| > 0 && Hangul(w[0]) && Hangul(w[|w| - 1]);
      HangulWordUnpadded(w);
    }
  }
}

=== FILE: overlays.dfy ===
/** The map overlays the page owns (the place marker and the route polyline). The page
    keeps one reference per kind; a new overlay replaces the referenced one, which is
    detached from the map first. A `Layer` records every overlay of one kind created so
    far, oldest first; the page's reference is the last of them. */
module Overlays {

  datatype Overlay<T> = Overlay(shape: T, onMap: bool)

  type Layer<T> = seq<Overlay<T>>

  /** Positions of the overlays currently drawn on the map. */
  function Attached<T>(l: Layer<T>): set<nat> {
    set i | 0 <= i < |l| && l[i].onMap
  }

  /** Only the referenced (last) overlay may be on the map. */
  predicate Valid<T>(l: Layer<T>) {
    forall i :: 0 <= i < |l| && l[i].onMap ==> i == |l| - 1
  }

  /** The referenced (last) overlay is on the map. */
  predicate Drawn<T>(l: Layer<T>) {
    |l| > 0 && |l| - 1 in Attached(l)
  }

  /** The referenced overlay is drawn and shows `shape`. */
  predicate Shows<T(==)>(l: Layer<T>, shape: T) {
    |l| > 0 && l[|l| - 1] == Overlay(shape, true)
  }

  /** `if (ref.current) ref.current.setMap(null)`: the referenced overlay leaves the map;
      the reference itself is kept. */
  function Detach<T>(l: Layer<T>): (r: Layer<T>)
    ensures |r| == |l|
    ensures forall i :: 0 <= i < |l| ==> r[i].shape == l[i].shape
    ensures forall i :: 0 <= i < |l| - 1 ==> r[i] == l[i]
    ensures |l| > 0 ==> !r[|l| - 1].onMap
    ensures Valid(l) ==> Valid(r) && Attached(r) == {}
  {
    if |l| == 0 then l else l[|l| - 1 := l[|l| - 1].(onMap := false)]
  }

  /** Detach the referenced overlay, create one showing `shape`, make it the reference and
      draw it: afterwards the new overlay is the only one on the map. */
  function Replace<T(==)>(l: Layer<T>, shape: T): (r: Layer<T>)
    ensures |r| == |l| + 1
    ensures Shows(r, shape)
    ensures forall i :: 0 <= i < |l| ==> r[i].shape == l[i].shape
    ensures Valid(l) ==> Valid(r) && Attached(r) == {|l|}
  {
    Detach(l) + [Overlay(shape, true)]
  }

  /** In a valid layer at most one overlay is drawn, and a drawn one is the referenced one. */
  lemma AtMostOneAttached<T>(l: Layer<T>)
    requires Valid(l)
    ensures |Attached(l)| <= 1
    ensures forall i :: i in Attached(l) ==> i == |l| - 1
  {
    if |l| > 0 && l[|l| - 1].onMap {
      assert Attached(l) == {|l| - 1};
    } else {
      assert Attached(l) == {};
    }
  }
}

=== FILE: places.dfy ===
/** Place records returned by the keyword search, and the proxy's removal of
    duplicate places: `list.filter((place, index, self) => index === self.findIndex(p => p.id === place.id))`. */
module Places {

  /** One search hit. Coordinates stay the decimal text the search returns
      (`x` is the longitude, `y` the latitude). */
  datatype Place = Place(
    id: string,
    name: string,
    category: string,
    roadAddress: string,
    x: string,
    y: string,
    url: string)

  /** No two records share an id. */
  predicate UniqueIds(s: seq<Place>) {
    forall i, j :: 0 <= i < j < |s| ==> s[i].id != s[j].id
  }

  /** The ids occurring in `s`. */
  function Ids(s: seq<Place>): set<string> {
    set p | p in s :: p.id
  }

  /** `Array.prototype.findIndex(p => p.id === id)`: the first index holding `id`, or -1. */
  function FindIndex(s: seq<Place>, id: string): (k: int)
    ensures -1 <= k < |s|
    ensures k == -1 <==> id !in Ids(s)
    ensures k >= 0 ==> s[k].id == id && forall j :: 0 <= j < k ==> s[j].id != id
  {
    if |s| == 0 then -1
    else if s[0].id == id then 0
    else
      var k := FindIndex(s[1..], id);
      assert forall p :: p in s[1..] ==> p in s;
      assert forall p :: p in s ==> p == s[0] || p in s[1..];
      if k == -1 then -1 else k + 1
  }

  /** Index `j` is where the id of `s[j]` first occurs: the filter callback's test. */
  predicate IsFirst(s: seq<Place>, j: nat)
    requires j < |s|
  {
    FindIndex(s, s[j].id) == j
  }

  /** The filter applied to the first `n` records (the callback still searches all of `s`). */
  function KeepFirsts(s: seq<Place>, n: nat): seq<Place>
    requires n <= |s|
  {
    if n == 0 then []
    else KeepFirsts(s, n - 1) + (if IsFirst(s, n - 1) then [s[n - 1]] else [])
  }

  /** The proxy's de-duplication of the merged search results. */
  function Dedupe(s: seq<Place>): seq<Place> {
    KeepFirsts(s, |s|)
  }

  /** The positions among the first `n` whose record is the first with its id, ascending. */
  function FirstIndices(s: seq<Place>, n: nat): (idx: seq<nat>)
    requires n <= |s|
    ensures forall k :: 0 <= k < |idx| ==> idx[k] < n && IsFirst(s, idx[k])
    ensures forall k, l :: 0 <= k < l < |idx| ==> idx[k] < idx[l]
    ensures forall j :: 0 <= j < n && IsFirst(s, j) ==> j in idx
  {
    if n == 0 then []
    else FirstIndices(s, n - 1) + (if IsFirst(s, n - 1) then [n - 1] else [])
  }

  /** The kept records are exactly the records at the first-occurrence positions, in order. */
  lemma {:induction false} KeepFirstsAreFirstIndices(s: seq<Place>, n: nat)
    requires n <= |s|
    ensures |KeepFirsts(s, n)| == |FirstIndices(s, n)|
    ensures forall k :: 0 <= k < |KeepFirsts(s, n)| ==> KeepFirsts(s, n)[k] == s[FirstIndices(s, n)[k]]
  {
    if n > 0 {
      KeepFirstsAreFirstIndices(s, n - 1);
    }
  }

  /** Dedupe is an order-preserving subsequence of its input that keeps exactly the
      records standing at the first occurrence of their id. */
  lemma DedupeIsFirstOccurrenceSubsequence(s: seq<Place>)
    ensures var r, idx := Dedupe(s), FirstIndices(s, |s|);
      && |r| == |idx|
      && (forall k, l :: 0 <= k < l < |idx| ==> idx[k] < idx[l])
      && (forall k :: 0 <= k < |r| ==> idx[k] < |s| && r[k] == s[idx[k]])
      && (forall j :: 0 <= j < |s| ==> (j in idx <==> IsFirst(s, j)))
  {
    KeepFirstsAreFirstIndices(s, |s|);
  }

  /** The output never holds two records with the same id. */
  lemma DedupeHasUniqueIds(s: seq<Place>)
    ensures UniqueIds(Dedupe(s))
  {
    var r, idx := Dedupe(s), FirstIndices(s, |s|);
    DedupeIsFirstOccurrenceSubsequence(s);
    forall i, j | 0 <= i < j < |r|
      ensures r[i].id != r[j].id
    {
      assert IsFirst(s, idx[i]) && IsFirst(s, idx[j]);
    }
  }

  /** Every id of the input survives, and the record kept for it is its first occurrence. */
  lemma DedupeKeepsFirstOfEveryId(s: seq<Place>)
    ensures Ids(Dedupe(s)) == Ids(s)
    ensures forall p :: p in Dedupe(s) ==> s[FindIndex(s, p.id)] == p
  {
    var r, idx := Dedupe(s), FirstIndices(s, |s|);
    DedupeIsFirstOccurrenceSubsequence(s);
    forall p | p in r
      ensures p.id in Ids(s) && s[FindIndex(s, p.id)] == p
    {
      var k :| 0 <= k < |r| && r[k] == p;
      assert s[idx[k]] == p;
    }
    forall id | id in Ids(s)
      ensures id in Ids(r)
    {
      var j := FindIndex(s, id);
      assert IsFirst(s, j);
      var k :| 0 <= k < |idx| && idx[k] == j;
      assert r[k] == s[j];
    }
  }

  lemma {:induction false} KeepFirstsOfUnique(s: seq<Place>, n: nat)
    requires n <= |s|
    requires UniqueIds(s)
    ensures KeepFirsts(s, n) == s[..n]
  {
    if n > 0 {
      KeepFirstsOfUnique(s, n - 1);
      assert IsFirst(s, n - 1);
      assert s[..n] == s[..n - 1] + [s[n - 1]];
    }
  }

  /** Dedupe returns its input unchanged exactly when the input has no repeated id. */
  lemma DedupeIdentityIffUnique(s: seq<Place>)
    ensures Dedupe(s) == s <==> UniqueIds(s)
  {
    if UniqueIds(s) {
      KeepFirstsOfUnique(s, |s|);
      assert s[..|s|] == s;
    } else {
      DedupeHasUniqueIds(s);
    }
  }

  lemma DedupeIdempotent(s: seq<Place>)
    ensures Dedupe(Dedupe(s)) == Dedupe(s)
  {
    DedupeHasUniqueIds(s);
    DedupeIdentityIffUnique(Dedupe(s));
  }

  /** A record is the first with its id exactly when that id is absent from the records before it. */
  lemma FirstIffUnseen(s: seq<Place>, i: nat)
    requires i < |s|
    ensures IsFirst(s, i) <==> s[i].id !in Ids(s[..i])
    ensures Ids(s[..i + 1]) == Ids(s[..i]) + {s[i].id}
  {
    var pre := s[..i];
    if s[i].id in Ids(pre) {
      var p :| p in pre && p.id == s[i].id;
      var j :| 0 <= j < i && pre[j] == p;
      assert s[j].id == s[i].id;
    }
    assert s[..i + 1] == pre + [s[i]];
  }

  /** Set-based reference computation of the same filter: one pass that keeps a record
      when its id has not been seen before. */
  method DedupeBySeenIds(s: seq<Place>) returns (r: seq<Place>)
    ensures r == Dedupe(s)
  {
    r := [];
    var seen: set<string> := {};
    var i := 0;
    while i < |s|
      invariant 0 <= i <= |s|
      invariant r == KeepFirsts(s, i)
      invariant seen == Ids(s[..i])
    {
      FirstIffUnseen(s, i);
      if s[i].id !in seen {
        r := r + [s[i]];
        seen := seen + {s[i].id};
      }
      i := i + 1;
    }
    assert s[..|s|] == s;
  }
}

=== FILE: proxy.dfy ===
/** The `GET /api/recommend` handler: validates and defaults the query parameters,
    runs one keyword search per comma-separated category, concatenates the hits in
    call order, removes duplicate places and answers with them or with an error. */
module Proxy {
  import opened Wrappers
  import opened Text
  import opened Places

  const DefaultQuery: string := "음식점"
  const DefaultRadius: string := "800"
  const MissingCoordinatesMessage: string := "Latitude and longitude are required"
  const UpstreamFailureMessage: string := "Failed to fetch data from Kakao API"

  /** The query parameters as `URLSearchParams.get` sees them: `None` for an absent parameter. */
  datatype Request = Request(lat: Option<string>, lng: Option<string>, query: Option<string>, radius: Option<string>)

  /** One upstream keyword search: the trimmed keyword, the centre and the radius. */
  datatype SearchCall = SearchCall(keyword: string, lat: string, lng: string, radius: string)

  /** What one upstream search yields: a parsed body whose `documents` field may be missing,
      or a thrown failure (network error or unparsable body). */
  datatype SearchReply = Replied(documents: Option<seq<Place>>) | Thrown

  datatype Response =
    | Found(documents: seq<Place>)
    | BadRequest(message: string)
    | ServerError(message: string)

  /** The response together with the upstream searches issued, in order. */
  datatype Handled = Handled(response: Response, issued: seq<SearchCall>)

  function Status(r: Response): int {
    match r
    case Found(_) => 200
    case BadRequest(_) => 400
    case ServerError(_) => 500
  }

  /** JavaScript truthiness of a parameter: present and not the empty string. */
  predicate Given(p: Option<string>) {
    p.Some? && p.value != ""
  }

  /** `searchParams.get(name) || fallback`. */
  function OrDefault(p: Option<string>, fallback: string): (v: string)
    ensures Given(p) ==> v == p.value
    ensures !Given(p) ==> v == fallback
  {
    if Given(p) then p.value else fallback
  }

  /** The searches for the pieces of the query, one per piece and in order: the loop body's
      `fetch` with `category.trim()` as the keyword. */
  function Plan(pieces: seq<string>, lat: string, lng: string, radius: string): seq<SearchCall> {
    seq(|pieces|, i requires 0 <= i < |pieces| => SearchCall(Trim(pieces[i]), lat, lng, radius))
  }

  /** The places a reply adds to the merged list: its documents, or nothing when the field is missing. */
  function Contribution(reply: SearchReply): seq<Place>
    requires reply.Replied?
  {
    reply.documents.GetOr([])
  }

  /** No search among `calls` throws. */
  predicate AllReply(calls: seq<SearchCall>, search: SearchCall -> SearchReply) {
    forall i :: 0 <= i < |calls| ==> search(calls[i]).Replied?
  }

  /** In-order concatenation of every reply's contribution (reference definition). */
  function Concat(calls: seq<SearchCall>, search: SearchCall -> SearchReply): seq<Place>
    requires AllReply(calls, search)
  {
    if |calls| == 0 then [] else Contribution(search(calls[0])) + Concat(calls[1..], search)
  }

  /** Where the gathering loop stopped: how many searches it issued and, unless one threw,
      the accumulated list. */
  datatype Gathered = Gathered(issued: nat, merged: Option<seq<Place>>)

  /** The `for … of` loop: each search in turn, appending its documents to `acc`
      (`allResults = [...allResults, ...data.documents]`); a throw ends the loop. */
  function Gather(calls: seq<SearchCall>, search: SearchCall -> SearchReply, acc: seq<Place>): (g: Gathered)
    ensures g.merged.Some? <==> AllReply(calls, search)
    ensures g.merged.Some? ==> g.issued == |calls| && g.merged.value == acc + Concat(calls, search)
    ensures g.merged.None? ==>
              && 0 < g.issued <= |calls|
              && search(calls[g.issued - 1]).Thrown?
              && AllReply(calls[..g.issued - 1], search)
  {
    if |calls| == 0 then Gathered(0, Some(acc))
    else
      match search(calls[0])
      case Thrown => Gathered(1, None)
      case Replied(docs) =>
        var g := Gather(calls[1..], search, acc + docs.GetOr([]));
        assert AllReply(calls, search) <==> AllReply(calls[1..], search) by {
          assert forall i :: 0 < i < |calls| ==> calls[i] == calls[1..][i - 1];
        }
        assert g.merged.None? ==> calls[1..][..g.issued - 1] == calls[1..g.issued];
        Gathered(g.issued + 1, g.merged)
  }

  /** The searches the handler plans for a request with coordinates. */
  function PlannedCalls(req: Request): seq<SearchCall>
    requires Given(req.lat) && Given(req.lng)
  {
    Plan(Split(OrDefault(req.query, DefaultQuery), ','), req.lat.value, req.lng.value,
         OrDefault(req.radius, DefaultRadius))
  }

  /** Runs the planned searches and answers: a 500 after a throw, carrying the searches
      issued up to and including the one that threw; otherwise a 200 with the de-duplicated
      in-order concatenation of every reply's documents (the empty list when nothing matched). */
  function Answer(calls: seq<SearchCall>, search: SearchCall -> SearchReply): (h: Handled)
    ensures AllReply(calls, search) ==> h == Handled(Found(Dedupe(Concat(calls, search))), calls)
    ensures !AllReply(calls, search) ==>
              && h.response == ServerError(UpstreamFailureMessage)
              && 0 < |h.issued| <= |calls| && h.issued == calls[..|h.issued|]
              && search(h.issued[|h.issued| - 1]).Thrown?
              && AllReply(h.issued[..|h.issued| - 1], search)
    ensures h.response.Found? ==> UniqueIds(h.response.documents)
    ensures !h.response.BadRequest?
  {
    var g := Gather(calls, search, []);
    if g.merged.None? then
      assert calls[..g.issued][..g.issued - 1] == calls[..g.issued - 1];
      Handled(ServerError(UpstreamFailureMessage), calls[..g.issued])
    else
      assert g.merged.value == Concat(calls, search);
      var unique := Dedupe(g.merged.value);
      DedupeHasUniqueIds(g.merged.value);
      if |unique| == 0 then Handled(Found([]), calls)
      else Handled(Found(unique), calls)
  }

  /** The handler. `search` stands for the upstream keyword search. */
  function Handle(req: Request, search: SearchCall -> SearchReply): Handled {
    if !Given(req.lat) || !Given(req.lng) then
      Handled(BadRequest(MissingCoordinatesMessage), [])
    else
      Answer(PlannedCalls(req), search)
  }

  /** Missing or empty coordinates, and only they, give a 400 with no upstream search. */
  lemma MissingCoordinatesRejected(req: Request, search: SearchCall -> SearchReply)
    ensures var h := Handle(req, search);
      (!Given(req.lat) || !Given(req.lng)) <==> (Status(h.response) == 400)
    ensures var h := Handle(req, search);
      Status(h.response) == 400 ==> h.response == BadRequest(MissingCoordinatesMessage) && h.issued == []
  {
    if Given(req.lat) && Given(req.lng) {
      assert Handle(req, search) == Answer(PlannedCalls(req), search);
    }
  }

  /** With coordinates given, the searches issued are a prefix of one search per comma-separated
      piece of the (defaulted) query, each with the trimmed piece, the coordinates and the
      (defaulted) radius; all of them are issued unless one throws. */
  lemma SearchesFollowQueryPieces(req: Request, search: SearchCall -> SearchReply)
    requires Given(req.lat) && Given(req.lng)
    ensures var h, pieces := Handle(req, search), Split(OrDefault(req.query, DefaultQuery), ',');
      && |h.issued| <= |pieces|
      && (forall i :: 0 <= i < |h.issued| ==>
            h.issued[i] == SearchCall(Trim(pieces[i]), req.lat.value, req.lng.value, OrDefault(req.radius, DefaultRadius)))
      && (h.response.Found? ==> |h.issued| == |pieces| == Count(OrDefault(req.query, DefaultQuery), ',') + 1)
  {
    var pieces := Split(OrDefault(req.query, DefaultQuery), ',');
    var calls := PlannedCalls(req);
    var h := Handle(req, search);
    HandleIssuesPlannedPrefix(req, search);
    forall i | 0 <= i < |h.issued|
      ensures h.issued[i] == calls[i]
    {
    }
  }

  /** With coordinates given, the searches issued are a prefix of the planned ones, and all
      of them on success. */
  lemma HandleIssuesPlannedPrefix(req: Request, search: SearchCall -> SearchReply)
    requires Given(req.lat) && Given(req.lng)
    ensures var h, calls := Handle(req, search), PlannedCalls(req);
      && |h.issued| <= |calls| && h.issued == calls[..|h.issued|]
      && (h.response.Found? ==> h.issued == calls)
  {
    var calls := PlannedCalls(req);
    var h := Answer(calls, search);
    assert Handle(req, search) == h;
    if AllReply(calls, search) {
      assert h.issued == calls;
    } else {
      assert h.response.ServerError?;
    }
  }

  /** The fallbacks of the handler: without a query it runs the single search for `음식점`,
      and every search uses the given radius, or 800 metres when none (or an empty one) is given. */
  lemma DefaultsApplied(req: Request, search: SearchCall -> SearchReply)
    requires Given(req.lat) && Given(req.lng)
    ensures var h, radius := Handle(req, search), if Given(req.radius) then req.radius.value else "800";
      && (!Given(req.query) ==> h.issued == [SearchCall("음식점", req.lat.value, req.lng.value, radius)])
      && (forall i :: 0 <= i < |h.issued| ==> h.issued[i].radius == radius)
  {
    RadiusApplied(req, search);
    if !Given(req.query) {
      DefaultQueryApplied(req, search);
    }
  }

  lemma RadiusApplied(req: Request, search: SearchCall -> SearchReply)
    requires Given(req.lat) && Given(req.lng)
    ensures forall i :: 0 <= i < |Handle(req, search).issued| ==>
              Handle(req, search).issued[i].radius == OrDefault(req.radius, DefaultRadius)
  {
    var calls := PlannedCalls(req);
    var h := Answer(calls, search);
    assert Handle(req, search) == h;
    forall i | 0 <= i < |h.issued|
      ensures h.issued[i].radius == OrDefault(req.radius, DefaultRadius)
    {
      assert h.issued[i] == calls[i];
    }
  }

  lemma DefaultQueryApplied(req: Request, search: SearchCall -> SearchReply)
    requires Given(req.lat) && Given(req.lng) && !Given(req.query)
    ensures Handle(req, search).issued ==
              [SearchCall(DefaultQuery, req.lat.value, req.lng.value, OrDefault(req.radius, DefaultRadius))]
  {
    var calls := PlannedCalls(req);
    SplitSeparatorFree(DefaultQuery, ',');
    assert Trim(DefaultQuery) == DefaultQuery by {
      assert Unpadded(DefaultQuery);
      TrimFixedPoint(DefaultQuery);
    }
    assert calls == [SearchCall(DefaultQuery, req.lat.value, req.lng.value, OrDefault(req.radius, DefaultRadius))];
    var h := Answer(calls, search);
    assert Handle(req, search) == h;
    assert h.issued == calls;
  }
}

=== FILE: text.dfy ===
/** The JavaScript string operations the recommendation code relies on:
    `String.prototype.split` with a one-character separator, `Array.prototype.join`
    and `String.prototype.trim`. Strings are sequences of Unicode scalar values. */
module Text {

  /** The code points `String.prototype.trim` strips: ECMAScript's WhiteSpace
      (tab, vertical tab, form feed, space, no-break space, byte-order mark and
      every space separator) and LineTerminator code points. */
  predicate IsSpace(c: char) {
    || c == '\t' || c == '\U{000B}' || c == '\U{000C}' || c == ' '
    || c == '\U{00A0}' || c == '\U{FEFF}'
    || c == '\U{1680}' || ('\U{2000}' <= c <= '\U{200A}')
    || c == '\U{202F}' || c == '\U{205F}' || c == '\U{3000}'
    || c == '\n' || c == '\r' || c == '\U{2028}' || c == '\U{2029}'
  }

  predicate AllSpace(s: string) {
    forall k :: 0 <= k < |s| ==> IsSpace(s[k])
  }

  /** Neither end of `s` is white space. */
  predicate Unpadded(s: string) {
    |s| == 0 || (!IsSpace(s[0]) && !IsSpace(s[|s| - 1]))
  }

  /** `r` is `s` with some run of white space removed from each end. */
  ghost predicate PaddingOf(s: string, r: string) {
    exists i :: PaddedAt(s, r, i)
  }

  /** `r` sits at position `i` of `s`, with only white space around it. */
  predicate PaddedAt(s: string, r: string, i: int) {
    0 <= i <= |s| - |r| && s[i..i + |r|] == r && AllSpace(s[..i]) && AllSpace(s[i + |r|..])
  }

  /** Number of occurrences of `c` in `s`. */
  function Count(s: string, c: char): nat {
    if |s| == 0 then 0 else (if s[0] == c then 1 else 0) + Count(s[1..], c)
  }

  function TrimStart(s: string): (r: string)
    ensures |r| <= |s| && r == s[|s| - |r|..]
    ensures AllSpace(s[..|s| - |r|])
    ensures |r| == 0 || !IsSpace(r[0])
  {
    if |s| > 0 && IsSpace(s[0]) then TrimStart(s[1..]) else s
  }

  function TrimEnd(s: string): (r: string)
    ensures |r| <= |s| && r == s[..|r|]
    ensures AllSpace(s[|r|..])
    ensures |r| == 0 || !IsSpace(r[|r| - 1])
  {
    if |s| > 0 && IsSpace(s[|s| - 1]) then TrimEnd(s[..|s| - 1]) else s
  }

  /** `String.prototype.trim`: white space removed from both ends. */
  function Trim(s: string): (r: string)
    ensures |r| <= |s|
  {
    TrimEnd(TrimStart(s))
  }

  /** Trimming removes white space only, and only from the two ends: the result is an infix
      of `s` with nothing but white space around it. */
  lemma TrimRemovesOnlyPadding(s: string)
    ensures Unpadded(Trim(s))
    ensures PaddingOf(s, Trim(s))
  {
    var t := TrimStart(s);
    var r := TrimEnd(t);
    var i := |s| - |t|;
    assert s[i..i + |r|] == r;
    assert s[..i] == s[..|s| - |t|];
    assert s[i + |r|..] == t[|r|..];
    assert PaddedAt(s, r, i);
  }

  /** Trimming leaves a string alone exactly when it has no white space at either end. */
  lemma TrimFixedPoint(s: string)
    ensures Trim(s) == s <==> Unpadded(s)
  {
    if Unpadded(s) {
      assert TrimStart(s) == s;
      assert TrimEnd(s) == s;
    }
  }

  lemma TrimIdempotent(s: string)
    ensures Trim(Trim(s)) == Trim(s)
  {
    TrimRemovesOnlyPadding(s);
    TrimFixedPoint(Trim(s));
  }

  /** `Array.prototype.join(sep)`: the parts with one `sep` between neighbours;
      the empty array joins to the empty string. */
  function Join(parts: seq<string>, sep: char): (s: string)
    ensures |parts| > 0 ==> parts[0] <= s
    ensures (forall i :: 0 <= i < |parts| ==> sep !in parts[i]) ==>
              Count(s, sep) + 1 == (if |parts| == 0 then 1 else |parts|)
  {
    if |parts| == 0 then ""
    else if |parts| == 1 then
      CountAbsent(parts[0], sep);
      parts[0]
    else
      var rest := Join(parts[1..], sep);
      CountAbsent(parts[0], sep);
      CountAppend(parts[0], [sep] + rest, sep);
      CountAppend([sep], rest, sep);
      assert Count([sep], sep) == 1 by { assert [sep][1..] == []; }
      assert parts[0] + [sep] + rest == parts[0] + ([sep] + rest);
      parts[0] + [sep] + rest
  }

  lemma {:induction false} CountAppend(a: string, b: string, c: char)
    ensures Count(a + b, c) == Count(a, c) + Count(b, c)
    decreases |a|
  {
    if |a| == 0 {
      assert a + b == b;
    } else {
      assert (a + b)[1..] == a[1..] + b;
      CountAppend(a[1..], b, c);
    }
  }

  lemma {:induction false} CountAbsent(s: string, c: char)
    ensures c !in s <==> Count(s, c) == 0
    decreases |s|
  {
    if |s| > 0 {
      CountAbsent(s[1..], c);
      assert s == [s[0]] + s[1..];
    }
  }

  /** `String.prototype.split(sep)` for a one-character separator: the pieces between
      separators, empty pieces included; a string without `sep` (also the empty string)
      gives a single piece. */
  function Split(s: string, sep: char): (parts: seq<string>)
    ensures |parts| == Count(s, sep) + 1
    ensures forall i :: 0 <= i < |parts| ==> sep !in parts[i]
    ensures Join(parts, sep) == s
    decreases |s|
  {
    if |s| == 0 then [""]
    else if s[0] == sep then
      var rest := Split(s[1..], sep);
      assert ([""] + rest)[1..] == rest;
      [""] + rest
    else
      var rest := Split(s[1..], sep);
      var parts := [[s[0]] + rest[0]] + rest[1..];
      assert parts[1..] == rest[1..];
      assert s == [s[0]] + s[1..];
      parts
  }

  lemma {:induction false} SplitSeparatorFree(p: string, sep: char)
    requires sep !in p
    ensures Split(p, sep) == [p]
    decreases |p|
  {
    if |p| > 0 {
      SplitSeparatorFree(p[1..], sep);
      assert [p[0]] + p[1..] == p;
    }
  }

  lemma {:induction false} SplitAfterPiece(p: string, t: string, sep: char)
    requires sep !in p
    ensures Split(p + [sep] + t, sep) == [p] + Split(t, sep)
    decreases |p|
  {
    var s := p + [sep] + t;
    if |p| == 0 {
      assert s[1..] == t;
    } else {
      assert s[1..] == p[1..] + [sep] + t;
      SplitAfterPiece(p[1..], t, sep);
      assert [p[0]] + p[1..] == p;
    }
  }

  /** Splitting undoes joining, for a non-empty list of separator-free pieces. */
  lemma {:induction false} SplitJoin(parts: seq<string>, sep: char)
    requires |parts| > 0
    requires forall i :: 0 <= i < |parts| ==> sep !in parts[i]
    ensures Split(Join(parts, sep), sep) == parts
    decreases |parts|
  {
    if |parts| == 1 {
      SplitSeparatorFree(parts[0], sep);
    } else {
      SplitJoin(parts[1..], sep);
      SplitAfterPiece(parts[0], Join(parts[1..], sep), sep);
      assert [parts[0]] + parts[1..] == parts;
    }
  }
}

=== FILE: view.dfy ===
/** The recommendation page as a state machine. The browser's geolocation, the fetch of
    `/api/recommend`, the random choices and the map SDK are lifted out: their outcomes
    arrive as events, random indices are chosen by the caller within the bound the page
    computes, and map overlays are the handle slots of module `Overlays`. */
module View {
  import opened Wrappers
  import opened Places
  import opened Overlays
  import opened Filters
  import Proxy
  import Text

  /** A map coordinate, kept as the decimal text of its latitude and longitude. */
  datatype Position = Position(lat: string, lng: string)

  /** The route line from the user to the recommended place. */
  datatype Route = Route(from: Position, to: Position)

  /** Where the map is centred when it is created. */
  const InitialCenter: Position := Position("36.3504", "127.3845")

  /** Where a place's marker goes (`new LatLng(Number(place.y), Number(place.x))`). */
  function PositionOf(p: Place): Position {
    Position(p.y, p.x)
  }

  /** The request in flight: waiting for the position, or for the proxy's answer
      (with the position the answer will be drawn from). */
  datatype Phase = Idle | Locating(roulette: bool) | Fetching(roulette: bool, here: Position)

  /** The notices the page shows with `alert`. */
  datatype Alert = LocationUnavailable | LoadFailed | NothingNearby | TooFewForRoulette

  /** How many candidates the wheel holds. */
  const WheelSize: nat := 5

  datatype ViewState = ViewState(
    selected: seq<string>,
    distance: string,
    mapReady: bool,
    center: Option<Position>,
    phase: Phase,
    loading: bool,
    recommendation: Option<Place>,
    rouletteItems: seq<Place>,
    rouletteOpen: bool,
    mustSpin: bool,
    prizeNumber: nat,
    userLocation: Option<Position>,
    markers: Layer<Position>,
    routes: Layer<Route>)

  /** The state when the page is first rendered. */
  const Init: ViewState :=
    ViewState([], DefaultDistance, false, None, Idle, false, None, [], false, false, 0, None, [], [])

  /** What `getNearbyRestaurants` resolves to, or that it threw. */
  datatype FetchResult = Fetched(documents: seq<Place>) | FetchFailed

  /** `getNearbyRestaurants`'s reading of the proxy's answer: a non-2xx status throws,
      otherwise the documents are returned. */
  function Receive(resp: Proxy.Response): (r: FetchResult)
    ensures r.Fetched? <==> Proxy.Status(resp) == 200
    ensures r.Fetched? ==> r.documents == resp.documents
  {
    match resp
    case Found(docs) => Fetched(docs)
    case _ => FetchFailed
  }

  /** The proxy request `getNearbyRestaurants` sends from position `here`. */
  function RequestFor(here: Position, sel: seq<string>, distance: string): Proxy.Request {
    Proxy.Request(Some(here.lat), Some(here.lng), Some(QueryFor(sel)), Some(distance))
  }

  predicate OfferedDistance(v: string) {
    exists d :: d in Distances && d.value == v
  }

  /** The marker and the route line are both drawn, at `p`. */
  predicate MapShows(s: ViewState, p: Place) {
    && Shows(s.markers, PositionOf(p))
    && |s.routes| > 0 && s.routes[|s.routes| - 1].onMap
    && s.routes[|s.routes| - 1].shape.to == PositionOf(p)
  }

  // ---------------------------------------------------------------------------
  // Transitions, one per handler of the page.
  // ---------------------------------------------------------------------------

  /** The map effect: once the SDK is loaded, a map centred on the initial position is created. */
  function MapLoaded(s: ViewState): (r: ViewState)
    ensures r.mapReady
    ensures !s.mapReady ==> r.center == Some(InitialCenter)
    ensures r.markers == s.markers && r.routes == s.routes
    ensures r.(mapReady := s.mapReady, center := s.center) == s
  {
    if s.mapReady then s else s.(mapReady := true, center := Some(InitialCenter))
  }

  /** `updateMapAndCard(place, from)`: the card shows `place`; with a map, the old marker and
      route are detached and a new marker at `place` and a route from `from` to it are drawn. */
  function ShowPlace(s: ViewState, place: Place, from: Position): (r: ViewState)
    ensures r.recommendation == Some(place)
    ensures s.mapReady ==> MapShows(r, place) && Shows(r.routes, Route(from, PositionOf(place)))
    ensures s.mapReady && Valid(s.markers) && Valid(s.routes) ==>
              Attached(r.markers) == {|s.markers|} && Attached(r.routes) == {|s.routes|}
    ensures !s.mapReady ==> r.markers == s.markers && r.routes == s.routes
    ensures Valid(s.markers) ==> Valid(r.markers)
    ensures Valid(s.routes) ==> Valid(r.routes)
  {
    var s1 := s.(recommendation := Some(place));
    if s.mapReady then
      s1.(markers := Replace(s.markers, PositionOf(place)),
          routes := Replace(s.routes, Route(from, PositionOf(place))))
    else s1
  }

  /** The start of `recommendProcess`: loading is set, the card is cleared and the marker and
      route are taken off the map before the position is requested. */
  function StartRequest(s: ViewState, roulette: bool): (r: ViewState)
    ensures r.loading && r.phase == Locating(roulette)
    ensures r.recommendation == None
    ensures !Drawn(r.markers) && !Drawn(r.routes)
    ensures Valid(s.markers) ==> Attached(r.markers) == {}
    ensures Valid(s.routes) ==> Attached(r.routes) == {}
    ensures r.rouletteItems == s.rouletteItems && r.selected == s.selected
    ensures r.(loading := s.loading, phase := s.phase, recommendation := s.recommendation,
               markers := s.markers, routes := s.routes) == s
  {
    s.(loading := true, phase := Locating(roulette), recommendation := None,
       markers := Detach(s.markers), routes := Detach(s.routes))
  }

  /** The geolocation error callback: the request ends with a notice and no fetch. */
  function LocationFailed(s: ViewState): (r: ViewState)
    requires s.phase.Locating?
    ensures !r.loading && r.phase == Idle
    ensures r.recommendation == s.recommendation && r.markers == s.markers && r.routes == s.routes
    ensures r == s.(loading := false, phase := Idle)
  {
    s.(loading := false, phase := Idle)
  }

  /** The geolocation success callback: the position is stored, the map is re-centred on it
      and the fetch is issued (see `RequestFor`). */
  function Located(s: ViewState, here: Position): (r: ViewState)
    requires s.phase.Locating?
    ensures r.userLocation == Some(here)
    ensures r.phase == Fetching(s.phase.roulette, here) && r.loading == s.loading
    ensures s.mapReady ==> r.center == Some(here)
    ensures r.(userLocation := s.userLocation, center := s.center, phase := s.phase) == s
  {
    s.(userLocation := Some(here),
       center := if s.mapReady then Some(here) else s.center,
       phase := Fetching(s.phase.roulette, here))
  }

  /** The random index the single mode may pick: below the number of results. */
  predicate PickInRange(roulette: bool, result: FetchResult, pick: nat) {
    !roulette && result.Fetched? && |result.documents| > 0 ==> pick < |result.documents|
  }

  datatype Outcome = Outcome(next: ViewState, alert: Option<Alert>)

  /** The rest of the geolocation callback: branch on the fetch result and the mode, then
      clear loading (the `finally`). `pick` stands for `Math.floor(Math.random() * n)`. */
  function Respond(s: ViewState, result: FetchResult, pick: nat): (o: Outcome)
    requires s.phase.Fetching?
    requires PickInRange(s.phase.roulette, result, pick)
    ensures !o.next.loading && o.next.phase == Idle
    ensures result.FetchFailed? ==>
              o.alert == Some(LoadFailed) && o.next.recommendation == s.recommendation
    ensures s.phase.roulette && result.Fetched? && |result.documents| >= WheelSize ==>
              && o.next.rouletteItems == result.documents[..WheelSize]
              && o.next.rouletteOpen && !o.next.mustSpin && o.alert == None
    ensures s.phase.roulette && result.Fetched? && |result.documents| < WheelSize ==>
              && o.alert == Some(TooFewForRoulette)
              && o.next.rouletteItems == s.rouletteItems && o.next.rouletteOpen == s.rouletteOpen
    ensures !s.phase.roulette && result.Fetched? && |result.documents| > 0 ==>
              && o.alert == None
              && o.next.recommendation == Some(result.documents[pick])
              && o.next.recommendation.value in result.documents
              && (s.mapReady ==> MapShows(o.next, o.next.recommendation.value))
              && (s.mapReady ==> Shows(o.next.routes, Route(s.phase.here, PositionOf(result.documents[pick]))))
    ensures !s.phase.roulette && result.Fetched? && |result.documents| == 0 ==>
              o.alert == Some(NothingNearby) && o.next.recommendation == s.recommendation
    ensures s.phase.roulette || result.FetchFailed? ==> o.next.markers == s.markers && o.next.routes == s.routes
    ensures o.alert.Some? ==> o.next == s.(loading := false, phase := Idle)
    ensures s.phase.roulette && o.alert.None? ==>
              o.next.(rouletteItems := s.rouletteItems, rouletteOpen := s.rouletteOpen, mustSpin := s.mustSpin)
                == s.(loading := false, phase := Idle)
    ensures !s.phase.roulette && o.alert.None? ==>
              o.next.(recommendation := s.recommendation, markers := s.markers, routes := s.routes)
                == s.(loading := false, phase := Idle)
  {
    var here := s.phase.here;
    var done := s.(loading := false, phase := Idle);
    match result
    case FetchFailed => Outcome(done, Some(LoadFailed))
    case Fetched(docs) =>
      if s.phase.roulette then
        if |docs| >= WheelSize then
          Outcome(done.(rouletteItems := docs[..WheelSize], rouletteOpen := true, mustSpin := false), None)
        else Outcome(done, Some(TooFewForRoulette))
      else if |docs| > 0 then Outcome(ShowPlace(done, docs[pick], here), None)
      else Outcome(done, Some(NothingNearby))
  }

  /** The bound of `Math.floor(Math.random() * rouletteItems.length)`. */
  predicate PrizeInRange(items: seq<Place>, prize: nat) {
    if |items| == 0 then prize == 0 else prize < |items|
  }

  /** `handleSpinClick`: ignored while the wheel spins; otherwise a prize index is drawn and the
      spin starts. */
  function SpinClicked(s: ViewState, prize: nat): (r: ViewState)
    requires PrizeInRange(s.rouletteItems, prize)
    ensures s.mustSpin ==> r == s
    ensures !s.mustSpin ==> r.mustSpin && r.prizeNumber == prize
    ensures |s.rouletteItems| > 0 ==> r.prizeNumber < |s.rouletteItems| || r.prizeNumber == s.prizeNumber
    ensures r.rouletteItems == s.rouletteItems && r.recommendation == s.recommendation
    ensures r.(prizeNumber := s.prizeNumber, mustSpin := s.mustSpin) == s
  {
    if s.mustSpin then s else s.(prizeNumber := prize, mustSpin := true)
  }

  /** The wheel's `onStopSpinning`: the spin ends, the dialog closes and, when a position is
      stored, the prize candidate is shown from there. */
  function SpinStopped(s: ViewState): (r: ViewState)
    requires s.prizeNumber < |s.rouletteItems|
    ensures !r.mustSpin && !r.rouletteOpen
    ensures s.userLocation.Some? ==>
              r.recommendation == Some(s.rouletteItems[s.prizeNumber]) && r.recommendation.value in s.rouletteItems
    ensures s.userLocation.None? ==> r.recommendation == s.recommendation && r.markers == s.markers
    ensures s.userLocation.Some? && s.mapReady ==> MapShows(r, s.rouletteItems[s.prizeNumber])
    ensures s.userLocation.Some? && s.mapReady ==>
              Shows(r.routes, Route(s.userLocation.value, PositionOf(s.rouletteItems[s.prizeNumber])))
    ensures r.(mustSpin := s.mustSpin, rouletteOpen := s.rouletteOpen, recommendation := s.recommendation,
               markers := s.markers, routes := s.routes) == s
  {
    var stopped := s.(mustSpin := false, rouletteOpen := false);
    match s.userLocation
    case Some(here) => ShowPlace(stopped, s.rouletteItems[s.prizeNumber], here)
    case None => stopped
  }

  // ---------------------------------------------------------------------------
  // Events and the invariant every reachable state keeps.
  // ---------------------------------------------------------------------------

  datatype Event =
    | MapReady
    | CategoryClicked(category: string)
    | SelectAllClicked(checked: CheckState)
    | DistanceChosen(value: string)
    | RecommendClicked(roulette: bool)
    | PositionFailed
    | PositionFound(here: Position)
    | Answered(response: Proxy.Response, pick: nat)
    | SpinClick(prize: nat)
    | SpinStop
    | RouletteDismissed

  /** When the page can deliver an event: the buttons are disabled while loading or before
      the map is ready and are covered by the modal wheel dialog, callbacks fire only for
      the request in flight, the wheel and its button live in the open dialog (the wheel
      only when it has candidates), and random indices stay within their bounds. */
  predicate Enabled(s: ViewState, e: Event) {
    match e
    case MapReady => true
    case CategoryClicked(c) => c in Categories
    case SelectAllClicked(_) => true
    case DistanceChosen(v) => OfferedDistance(v)
    case RecommendClicked(_) => !s.loading && s.mapReady && !s.rouletteOpen
    case PositionFailed => s.phase.Locating?
    case PositionFound(_) => s.phase.Locating?
    case Answered(response, pick) => s.phase.Fetching? && PickInRange(s.phase.roulette, Receive(response), pick)
    case SpinClick(prize) => s.rouletteOpen && PrizeInRange(s.rouletteItems, prize)
    case SpinStop => s.rouletteOpen && s.mustSpin && |s.rouletteItems| > 0
    case RouletteDismissed => s.rouletteOpen
  }

  /** The request in flight agrees with the loading flag and the stored position; while it
      is in flight the card is empty and the wheel dialog is closed. */
  predicate RequestInv(s: ViewState) {
    && (s.loading <==> !s.phase.Idle?)
    && (s.phase.Fetching? ==> s.userLocation == Some(s.phase.here))
    && (!s.phase.Idle? ==> s.recommendation == None && !s.rouletteOpen)
  }

  /** The filters hold values the dialog offers. */
  predicate FilterInv(s: ViewState) {
    WellFormed(s.selected) && OfferedDistance(s.distance)
  }

  /** The wheel holds no candidates or exactly five, its prize index points into them, and
      the dialog is open only with candidates. */
  predicate WheelInv(s: ViewState) {
    && (|s.rouletteItems| == 0 || |s.rouletteItems| == WheelSize)
    && (s.prizeNumber == 0 || s.prizeNumber < |s.rouletteItems|)
    && (s.rouletteOpen ==> |s.rouletteItems| == WheelSize)
  }

  /** Only the referenced marker and route can be drawn; they are drawn together, only on a
      created map, and at the recommended place. */
  predicate MapInv(s: ViewState) {
    && (s.mapReady ==> s.center.Some?)
    && Valid(s.markers) && Valid(s.routes)
    && (Drawn(s.markers) <==> Drawn(s.routes))
    && (Drawn(s.markers) ==> s.mapReady && s.recommendation.Some? && MapShows(s, s.recommendation.value))
  }

  /** The invariant of the page state. */
  predicate Inv(s: ViewState) {
    RequestInv(s) && FilterInv(s) && WheelInv(s) && MapInv(s)
  }

  lemma InitSatisfiesInv()
    ensures Inv(Init)
  {
    assert Distances[1] in Distances;
  }

  /** One event of the page. */
  function Step(s: ViewState, e: Event): (o: Outcome)
    requires Inv(s) && Enabled(s, e)
  {
    match e
    case MapReady => Outcome(MapLoaded(s), None)
    case CategoryClicked(c) => Outcome(s.(selected := Toggle(s.selected, c)), None)
    case SelectAllClicked(checked) => Outcome(s.(selected := SelectAll(checked)), None)
    case DistanceChosen(v) => Outcome(s.(distance := v), None)
    case RecommendClicked(roulette) => Outcome(StartRequest(s, roulette), None)
    case PositionFailed => Outcome(LocationFailed(s), Some(LocationUnavailable))
    case PositionFound(here) => Outcome(Located(s, here), None)
    case Answered(response, pick) => Respond(s, Receive(response), pick)
    case SpinClick(prize) => Outcome(SpinClicked(s, prize), None)
    case SpinStop => Outcome(SpinStopped(s), None)
    case RouletteDismissed => Outcome(s.(rouletteOpen := false), None)
  }

  lemma ShowPlaceKeepsMapInv(s: ViewState, place: Place, from: Position)
    requires MapInv(s)
    ensures MapInv(ShowPlace(s, place, from))
  {
  }

  lemma RespondKeepsInv(s: ViewState, result: FetchResult, pick: nat)
    requires Inv(s) && s.phase.Fetching? && PickInRange(s.phase.roulette, result, pick)
    ensures Inv(Respond(s, result, pick).next)
  {
    var done := s.(loading := false, phase := Idle);
    assert MapInv(done);
    if result.Fetched? && !s.phase.roulette && |result.documents| > 0 {
      ShowPlaceKeepsMapInv(done, result.documents[pick], s.phase.here);
    }
  }

  lemma SpinStoppedKeepsInv(s: ViewState)
    requires Inv(s) && s.rouletteOpen && s.mustSpin && |s.rouletteItems| > 0
    ensures Inv(SpinStopped(s))
  {
    var stopped := s.(mustSpin := false, rouletteOpen := false);
    assert MapInv(stopped);
    if s.userLocation.Some? {
      ShowPlaceKeepsMapInv(stopped, s.rouletteItems[s.prizeNumber], s.userLocation.value);
    }
  }

  /** Every event keeps the invariant. */
  lemma StepKeepsInv(s: ViewState, e: Event)
    requires Inv(s) && Enabled(s, e)
    ensures Inv(Step(s, e).next)
  {
    match e
    case Answered(response, pick) => RespondKeepsInv(s, Receive(response), pick);
    case SpinStop => SpinStoppedKeepsInv(s);
    case RecommendClicked(roulette) =>
      var r := StartRequest(s, roulette);
      assert MapInv(r);
    case _ =>
  }

  /** The states the page passes through on a sequence of events; events the page
      cannot deliver in the current state are skipped. */
  function Run(s: ViewState, events: seq<Event>): (r: ViewState)
    requires Inv(s)
    ensures Inv(r)
    decreases |events|
  {
    if |events| == 0 then s
    else if Enabled(s, events[0]) then
      StepKeepsInv(s, events[0]);
      Run(Step(s, events[0]).next, events[1..])
    else Run(s, events[1..])
  }

  /** Whatever the user and the callbacks do, at most one marker and at most one route line
      are on the map, both or neither, and when drawn they show the recommended place. */
  lemma OverlaysNeverAccumulate(events: seq<Event>)
    ensures var s := (InitSatisfiesInv(); Run(Init, events));
      && |Attached(s.markers)| <= 1 && |Attached(s.routes)| <= 1
      && (Attached(s.markers) == {} <==> Attached(s.routes) == {})
      && (Attached(s.markers) != {} ==> s.recommendation.Some? && MapShows(s, s.recommendation.value))
  {
    InitSatisfiesInv();
    var s := Run(Init, events);
    AtMostOneAttached(s.markers);
    AtMostOneAttached(s.routes);
  }

  /** Loading is cleared on every way a request completes: position failure, fetch failure
      and success in either mode. */
  lemma LoadingClearedOnCompletion(s: ViewState, e: Event)
    requires Inv(s) && Enabled(s, e)
    requires e.PositionFailed? || e.Answered?
    ensures !Step(s, e).next.loading
  {
  }

  /** A request that ends with a notice (no results, too few for the wheel, or a failed
      fetch) leaves the card empty and nothing drawn on the map, as `recommendProcess`
      cleared them at its start. */
  lemma NoticeLeavesCardEmpty(s: ViewState, response: Proxy.Response, pick: nat)
    requires Inv(s) && Enabled(s, Answered(response, pick))
    ensures var o := Step(s, Answered(response, pick));
      o.alert.Some? ==> o.next.recommendation == None && !Drawn(o.next.markers) && !Drawn(o.next.routes)
  {
    var o := Respond(s, Receive(response), pick);
    if o.alert.Some? {
      assert o.next.recommendation == None;
      assert !Drawn(o.next.markers);
    }
  }

  lemma OfferedDistanceNonEmpty(v: string)
    requires OfferedDistance(v)
    ensures v != ""
  {
    var d :| d in Distances && d.value == v;
  }

  /** For any well-formed selection and offered radius, the request the page builds makes the
      proxy search exactly the selected categories (or the fallback term when none is
      selected) around the position, within the chosen radius; every one of them is searched
      unless a search fails. */
  lemma RequestSearchesSelection(s: ViewState, here: Position, search: Proxy.SearchCall -> Proxy.SearchReply)
    requires FilterInv(s)
    requires here.lat != "" && here.lng != ""
    ensures var h := Proxy.Handle(RequestFor(here, s.selected, s.distance), search);
      var keywords := Keywords(s.selected);
      && |h.issued| <= |keywords|
      && (h.response.Found? ==> |h.issued| == |keywords|)
      && forall i :: 0 <= i < |h.issued| ==>
           h.issued[i] == Proxy.SearchCall(keywords[i], here.lat, here.lng, s.distance)
  {
    var req := RequestFor(here, s.selected, s.distance);
    var keywords := Keywords(s.selected);
    var q := QueryFor(s.selected);
    assert Proxy.OrDefault(req.query, Proxy.DefaultQuery) == q by {
      if |s.selected| > 0 {
        assert s.selected[0] in Categories;
        assert s.selected[0] <= q;
      }
    }
    OfferedDistanceNonEmpty(s.distance);
    assert Proxy.OrDefault(req.radius, Proxy.DefaultRadius) == s.distance;
    QueryRoundTrip(s.selected);
    assert Text.Split(q, ',') == keywords;
    QueryPiecesNeedNoTrim(s.selected);
    Proxy.SearchesFollowQueryPieces(req, search);
    var h := Proxy.Handle(req, search);
    forall i | 0 <= i < |h.issued|
      ensures h.issued[i] == Proxy.SearchCall(keywords[i], here.lat, here.lng, s.distance)
    {
      assert Text.Trim(keywords[i]) == keywords[i];
    }
  }
}

=== FILE: wrappers.dfy ===
/** A value that may be absent: a JavaScript `null` from a lookup, or a missing field. */
module Wrappers {

  datatype Option<+T> = None | Some(value: T) {

    /** The value when present, otherwise `default`. */
    function GetOr(default: T): T {
      match this
      case Some(v) => v
      case None => default
    }
  }
}
